=== FILE: README.md ===
# BreakReminder in Dafny

BreakReminder is a console program that plays an alert sound at twenty-five
and at fifty-five minutes past every hour, reminding its user to take a
break. This project models its core and proves properties of the model:

- the schedule rule of `BreakReminderService.Delay`, which turns the current
  instant into the next alert instant (module `Schedule`, over `DateTime`
  tick counts defined in `Timestamps`);
- the check / wait / check / play protocol of `ExecutionLoop`, as a
  sequential state machine that turns per-iteration inputs into a trace of
  events (module `ExecutionLoop`);
- the key decoding of `HandleKeyPresses` and the cancel-on-exit in the
  `finally` block of `Run` (module `KeyPresses`);
- the default-fallback logic of `Db.GetValue` and the skip / create /
  overwrite logic of `Db.SetValue` over an optional string dictionary
  (module `Db`). Nothing in the service calls `Db`; it is modelled on its own.

Modelling choices:

- Time is a `DateTime` tick count (100 ns per tick, tick 0 at
  0001-01-01 00:00), bounded by `DateTime.MaxValue`. `Minute`, `Second` and the
  fraction of a second are read off the tick count as `DateTime` does. The start
  of the hour is the tick count rounded down to a whole hour, as
  `new DateTime(Year, Month, Day, Hour, 0, 0)` gives. `AddHours(1)` throws past
  `DateTime.MaxValue`, and `NextAlert` returns `None` there. `ExecutionLoop`
  does not catch that exception, so the loop ends as faulted.
- The wall clock, the cancellation state and the way a wait ends are inputs
  to the loop: one `Turn` per iteration. `Run` sets the token-source field to
  `null` before it calls `Cancel()`. So a check point can see a request, no
  request, or a `null` field. A `null` field throws `NullReferenceException`,
  which the loop does not catch either. All three cases are modelled.
- `Delay` shows the next alert instant before it waits: it moves the cursor
  up a row, writes a line and sets the window title. Moving the cursor throws
  when output is redirected or the cursor is on the top row. That exception
  is not caught either, so the loop ends as faulted before the wait. Whether
  the display succeeds is an input of each iteration (`Display`).
- Sounds are emitted events (`Played`, `KeyAction`), not playback.
- `Console.ReadKey` is a sequence of reads. A read may fail (it throws when
  input is redirected). Pressing P can also fail: `_alertSound.Play()` throws
  when the sound file is missing or invalid (`AlertFailed`). Either exception
  ends key handling just as a quit key does. `Run` cancels the token in all
  three cases and rethrows the exceptions.
- The `TypeConverter` is a pair of functions. `toText` stands for
  `ConvertToString`. `fromText` stands for `ConvertFrom` and is `None` where
  the converter throws. `GetValue` does not catch that exception, so the model
  returns a `Failure`. A JSON `null` value is a `None` entry of the dictionary.

The schedule rule is fixed at minutes 25 and 55 of every hour. The keys are
A, B, E and H (system sounds), P (the alert), and Escape, C, Q and X (quit).
On an exact alert instant, the service waits for the next slot
(`NextSlotFromSlot`).

## Model

| member | source | states |
|---|---|---|
| Timestamps.TopOfHour | BreakReminder/BreakReminderService.cs:79 | the start of the hour lies at or before the current instant, less than an hour earlier, in the same hour, with minute, second and fraction all zero |
| Schedule.NextSlot | BreakReminder/BreakReminderService.cs:78-85 | the next alert is strictly after now, even when now is exactly :25:00 or :55:00; the wait is at most 30 minutes; the alert falls on minute 25 or 55 with zero seconds and no fraction; it is in the next hour exactly when the current minute is 55 or more, and otherwise in the same hour |
| Schedule.NextAlert | BreakReminder/BreakReminderService.cs:78-85 | computing the next alert on a `DateTime` fails exactly in the last five minutes of the representable range, and otherwise gives the rule's instant |
| Schedule.NextSlotIsEarliest | BreakReminder/BreakReminderService.cs:79-85 | no alert instant lies strictly between now and the computed next alert |
| Schedule.NoSlotBefore | BreakReminder/BreakReminderService.cs:79-85 | no alert instant lies strictly between now and the computed next alert, for every clock reading |
| Schedule.FirstSlotIsNextSlot | BreakReminder/BreakReminderService.cs:79-85 | conversely, the first alert instant after now is the one computed |
| Schedule.NextSlotFromSlot | BreakReminder/BreakReminderService.cs:80-85 | starting exactly on an alert instant, the next alert is a full 30 minutes later |
| ExecutionLoop.TurnEvents | BreakReminder/BreakReminderService.cs:56-91 | one iteration either goes round again as a clear check, the scheduling of the next alert instant, the wait, a clear check and one play, or ends in a single exit as its last event, without playing; the exit is "cancelled before the wait" exactly when the first check sees a request, "cancelled during the wait" exactly when a wait was started and is cancelled, "cancelled after the wait" exactly when a wait elapsed and the second check then sees a request, a clock fault exactly when the first check is clear and the next hour lies past `DateTime.MaxValue`, and a display fault exactly when the next alert was computed and showing it throws |
| ExecutionLoop.LoopTrace | BreakReminder/BreakReminderService.cs:52-74 | the loop produces events as soon as it runs, never exits before its last event, and has exited exactly when some iteration did not complete |
| ExecutionLoop.TurnEventsShape | BreakReminder/BreakReminderService.cs:56-91 | every iteration starts with its first check; it schedules the next alert exactly when that check is clear and the clock is in range; it waits exactly when, in addition, the display succeeded and the wait elapsed, and the second check comes right after the wait; an iteration has 2, 3 or 5 events accordingly; the released token source ends it exactly at the first check, at the wait, or at the second check |
| ExecutionLoop.StoppingTurnShape | BreakReminder/BreakReminderService.cs:54-73 | an iteration that stops plays nothing and ends in its single exit; a check that saw cancellation or a released token source, if the iteration has one, comes directly before that exit |
| ExecutionLoop.StoppedTrace | BreakReminder/BreakReminderService.cs:56-73 | the trace of a loop that stopped is the events of the iterations that completed, followed by those of the first iteration that did not |
| ExecutionLoop.CancelAtTopStops | BreakReminder/BreakReminderService.cs:58 | cancellation (or the released token source) seen at the top of any iteration ends the loop there: after the completed iterations come only that check and the matching exit, with no wait and no alert |
| ExecutionLoop.CancelAfterWaitStops | BreakReminder/BreakReminderService.cs:60-62 | cancellation (or the released token source) seen after the completed wait of any iteration ends the loop there: after the completed iterations come the check, the scheduling, the wait, that check and the matching exit, without the alert it waited for |
| ExecutionLoop.PlayIsGuarded | BreakReminder/BreakReminderService.cs:56-65 | in every trace, each play is immediately preceded by a clear check after a wait that elapsed, which followed the scheduling and a clear check at the top |
| ExecutionLoop.ExitIsLast | BreakReminder/BreakReminderService.cs:54-73 | the loop exits at most once, as its last event; a check that sees anything but no request, if there is one, comes directly before the exit |
| ExecutionLoop.PlayCount | BreakReminder/BreakReminderService.cs:56-65 | the number of alerts played equals the number of leading iterations that complete |
| ExecutionLoop.ScheduledAreNextSlots | BreakReminder/BreakReminderService.cs:60-91 | every wait the loop starts targets the next alert instant after the clock reading, at most 30 minutes ahead, with no alert instant in between |
| KeyPresses.Decode | BreakReminder/BreakReminderService.cs:98-125 | A plays the asterisk sound, B the beep, E the exclamation and H the hand sound, and no other key plays them; P plays the configured alert and is the only key that does; Escape, C, Q and X quit; every other key is ignored |
| KeyPresses.SoundKeyUnique | BreakReminder/BreakReminderService.cs:100-118 | each sound has exactly one key |
| KeyPresses.SoundsAreKeySounds | BreakReminder/BreakReminderService.cs:98-118 | every sound played is a sound, and is the action of some key that was pressed |
| KeyPresses.FirstEndExists | BreakReminder/BreakReminderService.cs:94-127 | key handling has a first ending read exactly when some read is a quit key, a failed read or a failed alert |
| KeyPresses.HandleKeyPresses | BreakReminder/BreakReminderService.cs:94-127 | key handling stops at the first quit key, failed read or failed alert and at no earlier one, keeps reading while there is none, and plays exactly the sounds of the sound keys before the stop, in order |
| KeyPresses.Run | BreakReminder/BreakReminderService.cs:16-44 | the token is cancelled exactly when key handling has ended, whether by a quit key, a failed read or a failed alert; `Run` rethrows exactly when key handling ended by one of the two exceptions, and the token is cancelled then too |
| Db.GetValue | BreakReminder/Db.cs:14-27 | the default is returned when the database is absent, when the key is absent, and when the stored string is null or empty; a non-empty stored string that converts yields its conversion; the read fails exactly when a non-empty stored string does not convert |
| Db.SetValue | BreakReminder/Db.cs:29-40 | the write is skipped exactly when the database or key is absent and the value is the type default; a write on an absent database creates a dictionary with exactly that key; a write sets the key's text and keeps every other entry |
| Db.GetAfterWrite | BreakReminder/Db.cs:18-39 | when the converter round-trips a value to non-empty text, a read after a write of that value returns it, whatever default is asked for |
| Db.GetAfterSet | BreakReminder/Db.cs:14-39 | reading with the type default after a set returns the value set, whether or not the write was skipped |
| Db.EmptyTextReadsAsDefault | BreakReminder/Db.cs:23-39 | a value whose text is empty reads back as the default after it is written |
| Db.SetLeavesOtherKeys | BreakReminder/Db.cs:33-39 | a set on one key leaves what every other key reads unchanged |
| Db.SetIsIdempotent | BreakReminder/Db.cs:29-39 | setting the same value twice leaves the database as setting it once |

## Left out

- The text that `Run` and `Delay` write, and the title `Delay` sets, are not modelled. A failure to show the next alert in `Delay` is modelled as a fault (`Display`). The `Console.WriteLine` calls in `Run` around key handling are not modelled. If one of them throws, the `finally` block still cancels the token.
- `SoundPlayer`, `SystemSounds` and `Dispose`: playback is an emitted event. In `ExecutionLoop`, `_alertSound.Play()` throws if the sound file is missing or invalid, which would fault the loop; that exit of the loop is not modelled. The same exception in key handling is modelled (`AlertFailed`).
- `Task.Factory.StartNew`, `Task.Delay` and the two threads: the loop and key handling are modelled separately and sequentially. Cancellation is a check result and a wait outcome given per iteration. Cancelling the token before the task starts, so that the loop never runs, is not modelled.
- `Task.Delay`'s conversion of the wait to whole milliseconds, and its range check: the wait is at most 30 minutes, well inside that range.
- `DateTime.Now`: local time, time zones and daylight saving are not modelled. The clock is an input tick count, and calendar dates are not modelled beyond tick arithmetic.
- The start of `Run` before the loop starts (reading the assembly name) can throw. It is not modelled: `Run` is modelled from the start of key handling.
- `Db`: file reading and writing, JSON (de)serialisation and its parse errors, `Thread.Sleep(500)` and the converter lookup `GetConverter` are not modelled. The file is the dictionary it holds, and a written dictionary is assumed to read back unchanged.
- `Db`: a `null` key (which throws `ArgumentNullException`) is not modelled: keys are strings.
- `Program.cs`: only a try/catch around `Run`.

=== FILE: db.dfy ===
/** The settings store of `Db.cs`: typed values kept as strings in one
    string-to-string dictionary that lives in a JSON file.

    The file is abstracted to the dictionary it deserializes to. A missing
    file is `None`; a value the JSON spells `null` is a `None` entry. The
    `TypeConverter` of `T` is abstracted to a pair of functions: `toText`
    (`ConvertToString`) and `fromText` (`ConvertFrom`, which is `None` where
    the converter throws on malformed text). */
module Db {

  import opened Wrappers

  /** The deserialized dictionary. */
  type Table = map<string, Option<string>>

  /** What `GetDb` returns: `None` when there is no file or it deserializes
      to `null`. */
  type Store = Option<Table>

  datatype Converter<!T> = Converter(toText: T -> string, fromText: string -> Option<T>)

  /** `ConvertFrom` threw on this stored text; `GetValue` does not catch it. */
  datatype DbError = ConversionFailed(text: string)

  /** `GetValue<T>(key, defaultValue)`. */
  function GetValue<T>(db: Store, key: string, defaultValue: T, conv: Converter<T>): (r: Result<T, DbError>)
    ensures db.None? ==> r == Success(defaultValue)
    ensures db.Some? && key !in db.value ==> r == Success(defaultValue)
    ensures db.Some? && key in db.value && (db.value[key].None? || db.value[key].value == "")
            ==> r == Success(defaultValue)
    ensures r.Failure? <==> db.Some? && key in db.value && db.value[key].Some?
                            && db.value[key].value != "" && conv.fromText(db.value[key].value).None?
    ensures r.Failure? ==> r.error.text != ""
    ensures r.Success? && db.Some? && key in db.value && db.value[key].Some? && db.value[key].value != ""
            ==> conv.fromText(db.value[key].value) == Some(r.value)
  {
    if db.None? || key !in db.value then Success(defaultValue)
    else
      var value := db.value[key];
      if value.None? || value.value == "" then Success(defaultValue)
      else match conv.fromText(value.value)
        case Some(v) => Success(v)
        case None => Failure(ConversionFailed(value.value))
  }

  /** What `SetValue` does: nothing, or write the given dictionary to the
      file. */
  datatype SetOutcome = Skipped | Written(table: Table)

  /** `SetValue<T>(key, value)`, where `zero` is `default(T)`. */
  function SetValue<T(==)>(db: Store, key: string, value: T, zero: T, conv: Converter<T>): (r: SetOutcome)
    ensures r.Skipped? <==> (db.None? || key !in db.value) && value == zero
    ensures r.Written? ==> key in r.table && r.table[key] == Some(conv.toText(value))
    ensures r.Written? && db.None? ==> r.table.Keys == {key}
    ensures r.Written? && db.Some? ==> r.table.Keys == db.value.Keys + {key}
    ensures r.Written? ==> forall k :: k in r.table && k != key ==> db.Some? && r.table[k] == db.value[k]
  {
    if (db.None? || key !in db.value) && value == zero then Skipped
    else
      var table := if db.None? then map[] else db.value;
      Written(table[key := Some(conv.toText(value))])
  }

  /** The database after a `SetValue`: unchanged when skipped, otherwise
      the written dictionary (as `GetDb` reads it back). */
  function After(db: Store, outcome: SetOutcome): Store {
    match outcome
    case Skipped => db
    case Written(table) => Some(table)
  }

  /** The converter reads back what it wrote, and writes no empty string
      (an empty string would read back as the default). */
  ghost predicate RoundTrips<T>(conv: Converter<T>, v: T) {
    conv.toText(v) != "" && conv.fromText(conv.toText(v)) == Some(v)
  }

  /** A value that was written reads back, whatever default is asked for. */
  lemma {:induction false} GetAfterWrite<T>(db: Store, key: string, v: T, zero: T, conv: Converter<T>, d: T)
    requires RoundTrips(conv, v)
    requires SetValue(db, key, v, zero, conv).Written?
    ensures GetValue(After(db, SetValue(db, key, v, zero, conv)), key, d, conv) == Success(v)
  {
  }

  /** Skipping a write of `default(T)` loses nothing: asking with
      `default(T)` as the default reads back the value whether or not the
      write happened. */
  lemma {:induction false} GetAfterSet<T>(db: Store, key: string, v: T, zero: T, conv: Converter<T>)
    requires RoundTrips(conv, v)
    ensures GetValue(After(db, SetValue(db, key, v, zero, conv)), key, zero, conv) == Success(v)
  {
  }

  /** A value whose text is empty does not read back after a write: the
      reader falls back to the default. */
  lemma {:induction false} EmptyTextReadsAsDefault<T>(db: Store, key: string, v: T, zero: T, conv: Converter<T>, d: T)
    requires conv.toText(v) == ""
    requires SetValue(db, key, v, zero, conv).Written?
    ensures GetValue(After(db, SetValue(db, key, v, zero, conv)), key, d, conv) == Success(d)
  {
  }

  /** `SetValue` on one key does not change what any other key reads. */
  lemma {:induction false} SetLeavesOtherKeys<T>(db: Store, key: string, v: T, zero: T, conv: Converter<T>, other: string, d: T)
    requires other != key
    ensures GetValue(After(db, SetValue(db, key, v, zero, conv)), other, d, conv) == GetValue(db, other, d, conv)
  {
  }

  /** Setting the same value twice leaves the database as setting it once. */
  lemma {:induction false} SetIsIdempotent<T>(db: Store, key: string, v: T, zero: T, conv: Converter<T>)
    ensures var once := After(db, SetValue(db, key, v, zero, conv));
            After(once, SetValue(once, key, v, zero, conv)) == once
  {
    var first := SetValue(db, key, v, zero, conv);
    if first.Written? {
      var t := first.table;
      assert t[key := Some(conv.toText(v))] == t;
    }
  }
}

=== FILE: execution_loop.dfy ===
/** `BreakReminderService.ExecutionLoop` as a sequential state machine.

    Each turn of the loop reads the cancellation state, computes the next
    alert instant and waits for it, reads the cancellation state again and
    then plays the alert. Everything the loop learns from outside (the
    cancellation state at the two check points, the clock, how the wait
    ended) is an input: one `Turn` per iteration. The loop's behaviour is the
    trace of `Event`s it produces. A finite list of turns yields the trace
    so far; the loop has not stopped if the trace does not end in `Exited`. */
module ExecutionLoop {

  import opened Wrappers
  import opened Timestamps
  import opened Schedule

  /** What a read of `_cancellationTokenSource.IsCancellationRequested`
      sees: no request, a request, or a field that `Run` has already set to
      `null` (the read then throws `NullReferenceException`). */
  datatype Check = Clear | Requested | Detached

  /** How `Task.Delay(next - now, token)` ends: the span elapsed, the token
      was cancelled (`TaskCanceledException`), or `Run` had already set the
      token source to `null` so that reading `.Token` throws. */
  datatype WaitOutcome = Elapsed | Cancelled | TokenGone

  /** How `Delay` shows the next alert instant before it waits: the cursor
      move, the line and the window title all succeed, or one of them throws
      (`SetCursorPosition` throws on redirected output or on the top row). */
  datatype Display = Shown | DisplayThrew

  /** The inputs of one iteration. */
  datatype Turn = Turn(atTop: Check, now: Ticks, display: Display, wait: WaitOutcome, afterWait: Check)

  /** Why the loop ended. `Faulted` exits are exceptions the two `catch`
      clauses do not handle: they end the task as faulted. */
  datatype Fault = ClockOutOfRange | DisplayFailed | SourceReleased
  datatype ExitReason =
    | CancelledBeforeWait
    | CancelledDuringWait
    | CancelledAfterWait
    | Faulted(fault: Fault)

  datatype Event =
    | Checked(seen: Check)
    | Scheduled(now: Ticks, next: Ticks)
    | Waited
    | Played
    | Exited(reason: ExitReason)

  /** The exit taken when a check point sees `c` other than `Clear`. */
  function ExitOnCheck(c: Check, cancelled: ExitReason): ExitReason
    requires c != Clear
  {
    if c == Requested then cancelled else Faulted(SourceReleased)
  }

  /** The events of one iteration. An iteration that goes round again is
      a clear check, the scheduling of the next alert, the wait, a second
      clear check and the alert; any other iteration ends in exactly one
      exit, as its last event, whose reason names the point that stopped it. */
  function TurnEvents(t: Turn): (events: seq<Event>)
    ensures |events| > 0
    ensures forall i :: 0 <= i < |events| - 1 ==> !events[i].Exited?
    ensures Completes(t) ==>
      events == [Checked(Clear), Scheduled(t.now, NextSlot(t.now)), Waited, Checked(Clear), Played]
    ensures !Completes(t) ==> events[|events| - 1].Exited? && Played !in events
    ensures var last := events[|events| - 1];
      && (last == Exited(CancelledBeforeWait) <==> t.atTop == Requested)
      && (last == Exited(Faulted(ClockOutOfRange)) <==> t.atTop == Clear && NextAlert(t.now).None?)
      && (last == Exited(Faulted(DisplayFailed)) <==>
            t.atTop == Clear && NextAlert(t.now).Some? && t.display == DisplayThrew)
      && (last == Exited(CancelledDuringWait) <==>
            t.atTop == Clear && NextAlert(t.now).Some? && t.display == Shown && t.wait == Cancelled)
      && (last == Exited(CancelledAfterWait) <==>
            && t.atTop == Clear && NextAlert(t.now).Some? && t.display == Shown
            && t.wait == Elapsed && t.afterWait == Requested)
  {
    if t.atTop != Clear then
      [Checked(t.atTop), Exited(ExitOnCheck(t.atTop, CancelledBeforeWait))]
    else
      match NextAlert(t.now)
      case None => [Checked(Clear), Exited(Faulted(ClockOutOfRange))]
      case Some(next) =>
        var head := [Checked(Clear), Scheduled(t.now, next)];
        if t.display == DisplayThrew then head + [Exited(Faulted(DisplayFailed))]
        else match t.wait
        case Cancelled => head + [Exited(CancelledDuringWait)]
        case TokenGone => head + [Exited(Faulted(SourceReleased))]
        case Elapsed =>
          if t.afterWait != Clear then
            head + [Waited, Checked(t.afterWait), Exited(ExitOnCheck(t.afterWait, CancelledAfterWait))]
          else
            head + [Waited, Checked(Clear), Played]
  }

  /** An iteration that ends by playing the alert and going round again. */
  predicate Completes(t: Turn) {
    && t.atTop == Clear && NextAlert(t.now).Some? && t.display == Shown
    && t.wait == Elapsed && t.afterWait == Clear
  }

  /** The trace of the loop over the given iterations. It is empty only
      before the first iteration, an exit can only be its last event, and
      it ends in an exit exactly when some iteration did not complete. */
  function LoopTrace(turns: seq<Turn>): (trace: seq<Event>)
    ensures |trace| == 0 <==> |turns| == 0
    ensures forall i :: 0 <= i < |trace| - 1 ==> !trace[i].Exited?
    ensures (|trace| > 0 && trace[|trace| - 1].Exited?) <==> CompletedTurns(turns) < |turns|
    decreases |turns|
  {
    if |turns| == 0 then []
    else if Completes(turns[0]) then TurnEvents(turns[0]) + LoopTrace(turns[1..])
    else TurnEvents(turns[0])
  }

  /** The number of alerts in a trace. */
  function CountPlayed(trace: seq<Event>): nat {
    if |trace| == 0 then 0
    else (if trace[0] == Played then 1 else 0) + CountPlayed(trace[1..])
  }

  /** The number of leading iterations that complete. */
  function CompletedTurns(turns: seq<Turn>): (n: nat)
    ensures n <= |turns|
    ensures forall i :: 0 <= i < n ==> Completes(turns[i])
    ensures n < |turns| ==> !Completes(turns[n])
  {
    if |turns| == 0 || !Completes(turns[0]) then 0 else 1 + CompletedTurns(turns[1..])
  }

  /** The steps of any iteration before its last event: the first check
      always happens; the next alert is scheduled exactly when that check is
      clear and the clock is in range; the wait completes exactly when, in
      addition, the display succeeded and the wait elapsed, and the second
      check follows it. Every way of stopping is covered: the released
      token source ends the loop exactly at one of its three uses. */
  lemma {:induction false} TurnEventsShape(t: Turn)
    ensures var events := TurnEvents(t);
      && |events| >= 2 && events[0] == Checked(t.atTop)
      && (events[1].Scheduled? <==> t.atTop == Clear && NextAlert(t.now).Some?)
      && (events[1].Scheduled? ==> events[1].now == t.now && events[1].next == NextSlot(t.now))
      && (Waited in events <==>
            t.atTop == Clear && NextAlert(t.now).Some? && t.display == Shown && t.wait == Elapsed)
      && |events| == (if !events[1].Scheduled? then 2 else if Waited !in events then 3 else 5)
      && (Waited in events ==> events[2] == Waited && events[3] == Checked(t.afterWait))
      && (events[|events| - 1] == Exited(Faulted(SourceReleased)) <==>
            || t.atTop == Detached
            || (&& t.atTop == Clear && NextAlert(t.now).Some? && t.display == Shown
                && (t.wait == TokenGone || (t.wait == Elapsed && t.afterWait == Detached))))
  {
  }

  /** A non-completing iteration plays nothing and ends in its exit. */
  lemma {:induction false} StoppingTurnShape(t: Turn)
    requires !Completes(t)
    ensures var events := TurnEvents(t);
      && Played !in events
      && events[|events| - 1].Exited?
      && (forall i :: 0 <= i < |events| - 1 ==> !events[i].Exited?)
      && (forall i :: 0 <= i < |events| && events[i] in {Checked(Requested), Checked(Detached)}
            ==> i == |events| - 2)
  {
  }

  /** The trace of a loop that has stopped: the events of the iterations
      that completed, then those of the one that did not. */
  lemma {:induction false} StoppedTrace(turns: seq<Turn>)
    requires CompletedTurns(turns) < |turns|
    ensures var n := CompletedTurns(turns);
      LoopTrace(turns) == LoopTrace(turns[..n]) + TurnEvents(turns[n])
    decreases |turns|
  {
    var n := CompletedTurns(turns);
    if n == 0 {
      assert turns[..n] == [];
    } else {
      var rest := turns[1..];
      CompletedTurnsTail(turns);
      StoppedTrace(rest);
      LoopTraceFirst(turns, n);
      assert rest[n - 1] == turns[n];
      AppendAssoc(TurnEvents(turns[0]), LoopTrace(rest[..n - 1]), TurnEvents(turns[n]));
    }
  }

  /** After a completed first iteration, the rest completes one fewer. */
  lemma {:induction false} CompletedTurnsTail(turns: seq<Turn>)
    requires CompletedTurns(turns) > 0
    ensures Completes(turns[0]) && CompletedTurns(turns[1..]) == CompletedTurns(turns) - 1
  {
  }

  /** The trace of the first `n` iterations, when the first completes. */
  lemma {:induction false} LoopTraceFirst(turns: seq<Turn>, n: nat)
    requires 0 < n <= |turns| && Completes(turns[0])
    ensures LoopTrace(turns) == TurnEvents(turns[0]) + LoopTrace(turns[1..])
    ensures LoopTrace(turns[..n]) == TurnEvents(turns[0]) + LoopTrace(turns[1..][..n - 1])
  {
    var pre := turns[..n];
    assert pre[0] == turns[0] && pre[1..] == turns[1..][..n - 1];
  }

  lemma {:induction false} AppendAssoc<E>(a: seq<E>, b: seq<E>, c: seq<E>)
    ensures a + (b + c) == (a + b) + c
  {
  }

  /** A check at the top of an iteration that sees a cancellation request
      (or the released token source) ends the loop there: after the
      iterations that completed, the trace holds only that check and the
      exit, with no wait and no alert. */
  lemma {:induction false} CancelAtTopStops(turns: seq<Turn>)
    requires CompletedTurns(turns) < |turns|
    requires turns[CompletedTurns(turns)].atTop != Clear
    ensures var n := CompletedTurns(turns);
      var c := turns[n].atTop;
      LoopTrace(turns) == LoopTrace(turns[..n])
        + [Checked(c), Exited(if c == Requested then CancelledBeforeWait else Faulted(SourceReleased))]
  {
    StoppedTrace(turns);
  }

  /** A check after a completed wait that sees a cancellation request (or
      the released token source) ends the loop without playing the alert it
      waited for. */
  lemma {:induction false} CancelAfterWaitStops(turns: seq<Turn>)
    requires CompletedTurns(turns) < |turns|
    requires var t := turns[CompletedTurns(turns)];
      && t.atTop == Clear && NextAlert(t.now).Some? && t.display == Shown
      && t.wait == Elapsed && t.afterWait != Clear
    ensures var n := CompletedTurns(turns);
      var t := turns[n];
      LoopTrace(turns) == LoopTrace(turns[..n])
        + [Checked(Clear), Scheduled(t.now, NextSlot(t.now)), Waited, Checked(t.afterWait),
           Exited(ExitOnCheck(t.afterWait, CancelledAfterWait))]
  {
    StoppedTrace(turns);
    AfterWaitEvents(turns[CompletedTurns(turns)]);
  }

  /** The events of an iteration whose second check stops it. */
  lemma {:induction false} AfterWaitEvents(t: Turn)
    requires t.atTop == Clear && NextAlert(t.now).Some? && t.display == Shown
    requires t.wait == Elapsed && t.afterWait != Clear
    ensures TurnEvents(t) == [Checked(Clear), Scheduled(t.now, NextSlot(t.now)), Waited, Checked(t.afterWait),
                              Exited(ExitOnCheck(t.afterWait, CancelledAfterWait))]
  {
    var next := NextAlert(t.now).value;
    assert TurnEvents(t) == [Checked(Clear), Scheduled(t.now, next)]
      + [Waited, Checked(t.afterWait), Exited(ExitOnCheck(t.afterWait, CancelledAfterWait))];
  }

  /** Every alert in any trace is preceded, in this order, by a clear check,
      the scheduling of an alert instant, a wait that elapsed, and a second
      clear check. */
  lemma {:induction false} PlayIsGuarded(turns: seq<Turn>, i: nat)
    requires i < |LoopTrace(turns)| && LoopTrace(turns)[i] == Played
    ensures 4 <= i
    ensures LoopTrace(turns)[i - 1] == Checked(Clear)
    ensures LoopTrace(turns)[i - 2] == Waited
    ensures LoopTrace(turns)[i - 3].Scheduled?
    ensures LoopTrace(turns)[i - 4] == Checked(Clear)
    decreases |turns|
  {
    var trace := LoopTrace(turns);
    var head := TurnEvents(turns[0]);
    if Completes(turns[0]) {
      var rest := LoopTrace(turns[1..]);
      assert trace == head + rest;
      if i >= 5 {
        assert rest[i - 5] == Played;
        PlayIsGuarded(turns[1..], i - 5);
        assert trace[i - 1] == rest[i - 6] && trace[i - 2] == rest[i - 7];
        assert trace[i - 3] == rest[i - 8] && trace[i - 4] == rest[i - 9];
      }
    } else {
      assert false;
    }
  }

  /** The loop stops at most once: an exit is the last event of the trace,
      and a check that sees anything but `Clear` is followed by that exit. */
  lemma {:induction false} ExitIsLast(turns: seq<Turn>, i: nat)
    requires i < |LoopTrace(turns)|
    ensures LoopTrace(turns)[i].Exited? ==> i == |LoopTrace(turns)| - 1
    ensures LoopTrace(turns)[i] in {Checked(Requested), Checked(Detached)}
            ==> i == |LoopTrace(turns)| - 2 && LoopTrace(turns)[i + 1].Exited?
    decreases |turns|
  {
    var trace := LoopTrace(turns);
    var head := TurnEvents(turns[0]);
    if Completes(turns[0]) {
      var rest := LoopTrace(turns[1..]);
      assert trace == head + rest;
      if i >= |head| {
        ExitIsLast(turns[1..], i - |head|);
        assert trace[i] == rest[i - |head|];
        if i + 1 < |trace| {
          assert trace[i + 1] == rest[i + 1 - |head|];
        }
      } else {
        assert trace[i] == head[i];
      }
    } else {
      assert trace == head;
      StoppingTurnShape(turns[0]);
    }
  }

  /** The loop plays exactly one alert per completed iteration, and stops
      playing at the first iteration that does not complete. */
  lemma {:induction false} PlayCount(turns: seq<Turn>)
    ensures CountPlayed(LoopTrace(turns)) == CompletedTurns(turns)
    decreases |turns|
  {
    if |turns| > 0 {
      var head := TurnEvents(turns[0]);
      if Completes(turns[0]) {
        assert LoopTrace(turns) == head + LoopTrace(turns[1..]);
        PlayCount(turns[1..]);
        CountPlayedAppend(head, LoopTrace(turns[1..]));
        CompletingTurnPlaysOnce(turns[0]);
      } else {
        StoppingTurnShape(turns[0]);
        CountPlayedNone(head);
      }
    }
  }

  /** A completing iteration plays the alert exactly once. */
  lemma {:induction false} CompletingTurnPlaysOnce(t: Turn)
    requires Completes(t)
    ensures CountPlayed(TurnEvents(t)) == 1
  {
    var head := TurnEvents(t);
    assert head == head[..4] + [Played];
    CountPlayedNone(head[..4]);
    CountPlayedAppend(head[..4], [Played]);
    assert CountPlayed([Played]) == 1 + CountPlayed([]);
  }

  /** Every alert instant the loop schedules lies strictly after the clock
      reading it was computed from, at most thirty minutes later, on minute
      25 or 55 with zero seconds, and no alert instant comes between them. */
  lemma {:induction false} ScheduledAreNextSlots(turns: seq<Turn>, i: nat)
    requires i < |LoopTrace(turns)| && LoopTrace(turns)[i].Scheduled?
    ensures var e := LoopTrace(turns)[i];
      && e.now < e.next <= e.now + MaxWait
      && IsAlertSlot(e.next)
      && e.next == NextSlot(e.now)
      && (forall s: nat :: e.now < s < e.next ==> !IsAlertSlot(s))
    decreases |turns|
  {
    var head := TurnEvents(turns[0]);
    if Completes(turns[0]) && i >= |head| {
      assert LoopTrace(turns) == head + LoopTrace(turns[1..]);
      ScheduledAreNextSlots(turns[1..], i - |head|);
    } else {
      assert LoopTrace(turns)[i] == head[i];
    }
    var e := LoopTrace(turns)[i];
    NoSlotBefore(e.now);
  }

  lemma {:induction false} CountPlayedAppend(a: seq<Event>, b: seq<Event>)
    ensures CountPlayed(a + b) == CountPlayed(a) + CountPlayed(b)
    decreases |a|
  {
    if |a| > 0 {
      assert (a + b)[0] == a[0];
      assert (a + b)[1..] == a[1..] + b;
      CountPlayedAppend(a[1..], b);
    } else {
      assert a + b == b;
    }
  }

  lemma {:induction false} CountPlayedNone(a: seq<Event>)
    requires Played !in a
    ensures CountPlayed(a) == 0
    decreases |a|
  {
    if |a| > 0 {
      CountPlayedNone(a[1..]);
    }
  }
}

=== FILE: key_presses.dfy ===
/** `BreakReminderService.HandleKeyPresses` and the cancel-on-exit of `Run`.

    Key handling reads keys one at a time and acts on each: four keys play a
    system sound, one plays the configured alert, four end key handling, and
    every other key is ignored. `Run` cancels the loop's token in its
    `finally` block, so key handling ending in any way (a quit key,
    `Console.ReadKey` throwing, or playing the alert throwing) cancels the
    token. */
module KeyPresses {

  import opened Wrappers

  /** The `System.ConsoleKey` values the service reacts to. */
  const Escape: int := 27
  const KeyA: int := 65
  const KeyB: int := 66
  const KeyC: int := 67
  const KeyE: int := 69
  const KeyH: int := 72
  const KeyP: int := 80
  const KeyQ: int := 81
  const KeyX: int := 88

  /** The four `System.Media.SystemSounds`. */
  datatype SystemSound = Asterisk | Beep | Exclamation | Hand

  /** What one key press does. */
  datatype KeyAction = PlayAlert | PlaySystemSound(kind: SystemSound) | Quit | Ignore {
    /** The action plays a sound. */
    predicate IsSound() {
      PlayAlert? || PlaySystemSound?
    }
  }

  /** The keys that end key handling. */
  const QuitKeys: set<int> := {Escape, KeyC, KeyQ, KeyX}

  /** The `switch` on the key read. */
  function Decode(key: int): (a: KeyAction)
    ensures a == Quit <==> key in QuitKeys
    ensures a == Ignore <==> key !in QuitKeys + {KeyA, KeyB, KeyE, KeyH, KeyP}
    ensures a == PlayAlert <==> key == KeyP
    ensures a == PlaySystemSound(Asterisk) <==> key == KeyA
    ensures a == PlaySystemSound(Beep) <==> key == KeyB
    ensures a == PlaySystemSound(Exclamation) <==> key == KeyE
    ensures a == PlaySystemSound(Hand) <==> key == KeyH
  {
    if key == KeyA then PlaySystemSound(Asterisk)
    else if key == KeyB then PlaySystemSound(Beep)
    else if key == KeyE then PlaySystemSound(Exclamation)
    else if key == KeyH then PlaySystemSound(Hand)
    else if key == KeyP then PlayAlert
    else if key in QuitKeys then Quit
    else Ignore
  }

  /** Every sound has exactly one key. */
  lemma {:induction false} SoundKeyUnique(k1: int, k2: int)
    requires Decode(k1).IsSound() && Decode(k1) == Decode(k2)
    ensures k1 == k2
  {
  }

  /** One step of key handling: a key read and acted on, the exception
      `Console.ReadKey(true)` throws (for example when input is redirected),
      or P pressed and `_alertSound.Play()` throwing because the sound file
      is missing or invalid. */
  datatype KeyRead = Pressed(key: int) | ReadFailed | AlertFailed

  /** The read that makes `HandleKeyPresses` leave its loop, by `return`
      or by exception. */
  predicate Ends(r: KeyRead) {
    !r.Pressed? || r.key in QuitKeys
  }

  /** The read leaves key handling by an exception, which `Run` rethrows
      after its `finally` block. */
  predicate Throws(r: KeyRead) {
    r.ReadFailed? || r.AlertFailed?
  }

  /** The index of the read that ends key handling: the first quit key,
      failed read or failed alert, if any. */
  function FirstEnd(keys: seq<KeyRead>): (r: Option<nat>)
    ensures r.Some? ==> r.value < |keys| && Ends(keys[r.value])
    ensures r.Some? ==> forall j :: 0 <= j < r.value ==> !Ends(keys[j])
    ensures r.None? ==> forall j :: 0 <= j < |keys| ==> !Ends(keys[j])
    decreases |keys|
  {
    if |keys| == 0 then None
    else if Ends(keys[0]) then Some(0)
    else
      match FirstEnd(keys[1..])
      case None => None
      case Some(i) => Some(i + 1)
  }

  /** Key handling ends exactly when some read ends it. */
  lemma {:induction false} FirstEndExists(keys: seq<KeyRead>)
    ensures FirstEnd(keys).Some? <==> exists j :: 0 <= j < |keys| && Ends(keys[j])
  {
  }

  /** How many reads key handling acts on: those before the read that ends
      it, or all of them while it is still reading. */
  function HandledCount(keys: seq<KeyRead>): (n: nat)
    ensures n <= |keys|
  {
    match FirstEnd(keys)
    case None => |keys|
    case Some(i) => i
  }

  /** The sound one read plays, if any. */
  function SoundOf(r: KeyRead): seq<KeyAction> {
    if r.Pressed? && Decode(r.key).IsSound() then [Decode(r.key)] else []
  }

  /** The sounds the first `n` reads play, in order. */
  function SoundsBefore(keys: seq<KeyRead>, n: nat): (played: seq<KeyAction>)
    requires n <= |keys|
    ensures |played| <= n
  {
    if n == 0 then [] else SoundsBefore(keys, n - 1) + SoundOf(keys[n - 1])
  }

  /** Key handling plays only sounds, and only the sounds of keys pressed:
      the `k`-th sound played is the action of some key read. */
  lemma {:induction false} SoundsAreKeySounds(keys: seq<KeyRead>, n: nat, k: nat)
    requires n <= |keys| && k < |SoundsBefore(keys, n)|
    ensures SoundsBefore(keys, n)[k].IsSound()
    ensures exists j :: 0 <= j < n && keys[j].Pressed? && Decode(keys[j].key) == SoundsBefore(keys, n)[k]
    decreases n
  {
    if k < |SoundsBefore(keys, n - 1)| {
      SoundsAreKeySounds(keys, n - 1, k);
    } else {
      assert SoundsBefore(keys, n)[k] == Decode(keys[n - 1].key);
    }
  }

  /** The key-handling loop over the keys available so far. `stop` is the
      index of the read that ended it; `None` means it is still waiting for
      a key. `played` are the sounds it played, in order. */
  method HandleKeyPresses(keys: seq<KeyRead>) returns (played: seq<KeyAction>, stop: Option<nat>)
    ensures stop == FirstEnd(keys)
    ensures played == SoundsBefore(keys, HandledCount(keys))
  {
    played, stop := [], None;
    var i := 0;
    while i < |keys|
      invariant 0 <= i <= |keys|
      invariant forall j :: 0 <= j < i ==> !Ends(keys[j])
      invariant played == SoundsBefore(keys, i)
    {
      var r := keys[i];
      if r.ReadFailed? || r.AlertFailed? {
        stop := Some(i);
        break;
      }
      var action := Decode(r.key);
      if action == Quit {
        stop := Some(i);
        break;
      }
      if action.IsSound() {
        played := played + [action];
      }
      i := i + 1;
    }
    FirstEndAt(keys, i);
  }

  /** The first ending read is the one after a run of non-ending reads. */
  lemma {:induction false} FirstEndAt(keys: seq<KeyRead>, i: nat)
    requires i <= |keys|
    requires forall j :: 0 <= j < i ==> !Ends(keys[j])
    requires i == |keys| || Ends(keys[i])
    ensures FirstEnd(keys) == if i == |keys| then None else Some(i)
    ensures HandledCount(keys) == i
  {
  }

  /** The state `Run` leaves behind: the sounds played from the keyboard,
      whether key handling ended by an exception from `Console.ReadKey` or
      from playing the alert (which `Run` rethrows after its `finally`), and
      whether the loop's cancellation token has been cancelled. */
  datatype RunOutcome = RunOutcome(played: seq<KeyAction>, threw: bool, cancelled: bool)

  /** `Run` after the loop has been started: handle keys, then cancel the
      token whichever way key handling ended. While key handling is still
      reading, nothing is cancelled. */
  method Run(keys: seq<KeyRead>) returns (r: RunOutcome)
    ensures r.cancelled <==> FirstEnd(keys).Some?
    ensures r.threw <==> FirstEnd(keys).Some? && Throws(keys[FirstEnd(keys).value])
    ensures r.played == SoundsBefore(keys, HandledCount(keys))
  {
    var played, stop := HandleKeyPresses(keys);
    match stop
    case None =>
      r := RunOutcome(played, false, false);
    case Some(i) =>
      r := RunOutcome(played, Throws(keys[i]), true);
  }
}

=== FILE: schedule.dfy ===
/** The break schedule of `BreakReminderService.Delay`: an alert is due at
    twenty-five and at fifty-five minutes past every hour, and the service
    always waits for the first such instant strictly after the current one. */
module Schedule {

  import opened Wrappers
  import opened Timestamps

  /** The longest wait between two alerts: thirty minutes. */
  const MaxWait: int := 30 * TicksPerMinute

  /** An instant at which an alert is due: minute 25 or 55 of some hour, with
      zero seconds and no fraction of a second. */
  predicate IsAlertSlot(t: nat) {
    && (Minute(t) == 25 || Minute(t) == 55)
    && Second(t) == 0
    && Fraction(t) == 0
  }

  /** The rule of `Delay` on unbounded tick counts: before minute 25 the alert
      is at :25 of this hour, before minute 55 at :55 of this hour, otherwise
      at :25 of the next hour. */
  function NextSlot(now: nat): (next: nat)
    ensures now < next <= now + MaxWait
    ensures IsAlertSlot(next)
    ensures Minute(now) >= 55 ==> HourIndex(next) == HourIndex(now) + 1
    ensures Minute(now) < 55 ==> HourIndex(next) == HourIndex(now)
  {
    FieldsSplit(now);
    var top := TopOfHour(now);
    var top' := if Minute(now) >= 55 then top + TicksPerHour else top;
    var minute := if Minute(now) < 25 || Minute(now) >= 55 then 25 else 55;
    var hour := HourIndex(now) + (if Minute(now) >= 55 then 1 else 0);
    FieldsOf(top', hour, 0, 0, 0);
    FieldsOf(top' + minute * TicksPerMinute, hour, minute, 0, 0);
    top' + minute * TicksPerMinute
  }

  /** The next alert instant as `Delay` computes it on a `DateTime`: `None`
      where `topOfTheHour.AddHours(1)` throws because the next hour lies past
      `DateTime.MaxValue`, which happens exactly in the last five minutes of
      the representable range. */
  function NextAlert(now: Ticks): (r: Option<Ticks>)
    ensures r.None? <==> Minute(now) >= 55 && HourIndex(now) == HourIndex(MaxTicks)
    ensures r.Some? ==> r.value == NextSlot(now)
  {
    FieldsSplit(now);
    var top: Ticks := TopOfHour(now);
    // `AddHours(1)` and `AddMinutes(offset)` each throw when the sum leaves
    // the range of `DateTime`.
    if Minute(now) >= 55 && top + TicksPerHour > MaxTicks then None
    else
      var hour := if Minute(now) >= 55 then top + TicksPerHour else top;
      var offset := if Minute(now) < 25 || Minute(now) >= 55 then 25 else 55;
      if hour + offset * TicksPerMinute > MaxTicks then None
      else Some(hour + offset * TicksPerMinute)
  }

  /** `NextSlot` is the earliest alert instant strictly after `now`: no alert
      instant lies between `now` and it. */
  lemma {:induction false} NextSlotIsEarliest(now: nat, s: nat)
    requires now < s && IsAlertSlot(s)
    ensures NextSlot(now) <= s
  {
    FieldsSplit(now);
    FieldsSplit(s);
    var h, hs := HourIndex(now), HourIndex(s);
    var next := NextSlot(now);
    assert next <= (h + 1) * TicksPerHour + 25 * TicksPerMinute;
    if hs < h {
      MulAtLeast(h - hs, TicksPerHour);
      assert false;
    } else if hs == h {
      assert Minute(now) < Minute(s);
    } else {
      MulAtLeast(hs - h, TicksPerHour);
      assert s >= (h + 1) * TicksPerHour + 25 * TicksPerMinute;
    }
  }

  /** No alert instant lies strictly between `now` and `NextSlot(now)`. */
  lemma {:induction false} NoSlotBefore(now: nat)
    ensures forall s: nat :: now < s < NextSlot(now) ==> !IsAlertSlot(s)
  {
    forall s: nat | now < s < NextSlot(now)
      ensures !IsAlertSlot(s)
    {
      if IsAlertSlot(s) {
        NextSlotIsEarliest(now, s);
      }
    }
  }

  /** Conversely, an alert instant after `now` with no alert instant in
      between is the one `NextSlot` picks. */
  lemma {:induction false} FirstSlotIsNextSlot(now: nat, s: nat)
    requires now < s && IsAlertSlot(s)
    requires forall t: nat :: now < t < s ==> !IsAlertSlot(t)
    ensures s == NextSlot(now)
  {
    NextSlotIsEarliest(now, s);
  }

  /** On an alert instant itself the service does not fire again at once: it
      waits for the other half of the hour. */
  lemma {:induction false} NextSlotFromSlot(now: nat)
    requires IsAlertSlot(now)
    ensures NextSlot(now) == now + MaxWait
  {
    FieldsSplit(now);
  }
}

=== FILE: timestamps.dfy ===
/** Instants as .NET `DateTime` tick counts.

    A tick is 100 ns and tick 0 is midnight of 0001-01-01. Tick arithmetic has
    no time zones and no daylight saving: a day is exactly 24 hours, so the
    start of an hour is just the tick count rounded down to a multiple of
    `TicksPerHour`. The calendar fields the schedule reads (`Minute`, `Second`,
    the fraction of a second) are defined here from the tick count. */
module Timestamps {

  const TicksPerSecond: int := 10_000_000
  const TicksPerMinute: int := 600_000_000
  const TicksPerHour: int := 36_000_000_000

  /** `DateTime.MaxValue.Ticks`: 9999-12-31 23:59:59.9999999. */
  const MaxTicks: int := 3_155_378_975_999_999_999

  /** The instants a `DateTime` can hold. */
  type Ticks = t: int | 0 <= t <= MaxTicks

  /** Hours elapsed since tick 0. */
  function HourIndex(t: nat): nat {
    t / TicksPerHour
  }

  /** `DateTime.Minute`. */
  function Minute(t: nat): nat {
    (t % TicksPerHour) / TicksPerMinute
  }

  /** `DateTime.Second`. */
  function Second(t: nat): nat {
    (t % TicksPerMinute) / TicksPerSecond
  }

  /** The ticks below one second (`Millisecond` and the finer digits). */
  function Fraction(t: nat): nat {
    t % TicksPerSecond
  }

  /** The instant `new DateTime(Year, Month, Day, Hour, 0, 0)` built from `t`. */
  function TopOfHour(t: nat): (top: nat)
    ensures top <= t < top + TicksPerHour
    ensures HourIndex(top) == HourIndex(t)
    ensures Minute(top) == 0 && Second(top) == 0 && Fraction(top) == 0
  {
    var top := t - t % TicksPerHour;
    FieldsOf(top, HourIndex(t), 0, 0, 0);
    top
  }

  /** The tick count with the given calendar fields is unique: reading the
      fields back off `h:m:s.f` gives `h`, `m`, `s` and `f`. */
  lemma {:induction false} FieldsOf(t: nat, h: nat, m: nat, s: nat, f: nat)
    requires m < 60 && s < 60 && f < TicksPerSecond
    requires t == h * TicksPerHour + m * TicksPerMinute + s * TicksPerSecond + f
    ensures HourIndex(t) == h && Minute(t) == m && Second(t) == s && Fraction(t) == f
  {
    var inHour := m * TicksPerMinute + s * TicksPerSecond + f;
    assert 0 <= inHour < TicksPerHour;
    assert t / TicksPerHour == h && t % TicksPerHour == inHour by {
      DivModUnique(t, TicksPerHour, h, inHour);
    }
    var inMinute := s * TicksPerSecond + f;
    assert inHour / TicksPerMinute == m && inHour % TicksPerMinute == inMinute by {
      DivModUnique(inHour, TicksPerMinute, m, inMinute);
    }
    assert t % TicksPerMinute == inMinute by {
      DivModUnique(t, TicksPerMinute, h * 60 + m, inMinute);
    }
    assert inMinute / TicksPerSecond == s by {
      DivModUnique(inMinute, TicksPerSecond, s, f);
    }
    assert t % TicksPerSecond == f by {
      DivModUnique(t, TicksPerSecond, h * 3600 + m * 60 + s, f);
    }
  }

  /** Every instant splits into its calendar fields. */
  lemma {:induction false} FieldsSplit(t: nat)
    ensures Minute(t) < 60 && Second(t) < 60 && Fraction(t) < TicksPerSecond
    ensures t == HourIndex(t) * TicksPerHour + Minute(t) * TicksPerMinute
                 + Second(t) * TicksPerSecond + Fraction(t)
  {
    var r := t % TicksPerHour;
    var q := r % TicksPerMinute;
    assert t % TicksPerMinute == q by {
      DivModUnique(t, TicksPerMinute, HourIndex(t) * 60 + r / TicksPerMinute, q);
    }
    assert t % TicksPerSecond == q % TicksPerSecond by {
      DivModUnique(t, TicksPerSecond, HourIndex(t) * 3600 + (r / TicksPerMinute) * 60 + q / TicksPerSecond,
                   q % TicksPerSecond);
    }
  }

  /** Euclidean division has one quotient and one remainder. */
  lemma {:induction false} DivModUnique(a: int, d: int, q: int, r: int)
    requires 0 < d && 0 <= r < d && a == q * d + r
    ensures a / d == q && a % d == r
  {
    var q', r' := a / d, a % d;
    assert a == q' * d + r';
    if q' < q {
      assert (q - q') * d == r' - r;
      MulAtLeast(q - q', d);
    } else if q < q' {
      assert (q' - q) * d == r - r';
      MulAtLeast(q' - q, d);
    }
  }

  lemma {:induction false} MulAtLeast(k: int, d: int)
    requires 1 <= k && 0 < d
    ensures k * d >= d
  {
    assert k * d == (k - 1) * d + d;
    assert (k - 1) * d >= 0;
  }
}

=== FILE: wrappers.dfy ===
/** An optional value and a value-or-error result shared by the model. */
module Wrappers {

  /** An optional value; `None` stands for the source's `null`. */
  datatype Option<+T> = None | Some(value: T)

  /** A value, or the error that an operation of the source throws. */
  datatype Result<+R, +E> = Success(value: R) | Failure(error: E)
}
